=== FILE: README.md ===
# In-memory transactional key-value store

A Dafny model of `InMemoryDatabase` (`inmemdb.py`). The store has three parts:

- a committed map (`main_store`);
- a log of pending writes (`transaction_log`);
- a flag saying whether a transaction is open (`in_transaction`).

It offers `begin_transaction`, `put`, `get`, `commit` and `rollback`.

In the model, the store is an immutable `Store.Database` value and every operation is a pure function of it:

- `put` returns the new store.
- `begin_transaction`, `commit` and `rollback` return a `Result`: either the new store, or the `Error` the Python code raises.
- `get` returns an `Option`, where `None` is Python's `None`.

`StoreMethods` writes the two loops of the class as loops: the backward scan of `get` and the forward replay of `commit`. It proves that each computes what the functional definition says.

`Session` runs a sequence of calls, reporting a raised error to the caller and carrying on. It states the properties that span several calls:

- rollback restores the store;
- commit replays the log in order;
- a read sees your own writes;
- the last write wins;
- the idle-state invariant holds in every reachable state;
- the source file's own demonstration (lines 48-87) produces the replies stated in `Session.DemoReplies`.

The model follows the code where the code differs from the comments in its demonstration:

- **Idle `put` writes through.** A `put` while no transaction is open writes straight into the committed map (lines 16-17). The comment at line 57 expects an error there, but `put` has no error path, so `Store.Put` returns a `Database` and not a `Result`.
- **A read inside a transaction sees its own pending write.** `get` inside a transaction returns the newest pending write of the key (lines 20-24). The comment at line 62 expects `None` there. `Session.DemoFirstReplies` records the value the code actually returns, `Some(5)`.

## Model

| member | source | states |
|---|---|---|
| Store.Init | inmemdb.py:2-5 | A new store has no transaction open, an empty log and nothing committed. |
| Store.InitReads | inmemdb.py:2-5 | Every key of a new store reads as absent. |
| Store.BeginTransaction | inmemdb.py:7-11 | Fails with `TransactionConflict` exactly when a transaction is already open. Otherwise it opens a transaction with an empty log and leaves the committed map as it was. |
| Store.BeginPreservesReads | inmemdb.py:7-11 | From an idle store, opening a transaction changes no key's read. This holds even if a stale log were present, because `begin_transaction` empties the log itself. |
| Store.Put | inmemdb.py:13-17 | Never fails and never changes whether a transaction is open. Inside a transaction it appends exactly one entry `(k, v)` to the log and leaves the committed map alone. Outside one it leaves the log alone, and the map's keys become the old keys plus `k`. It keeps the idle-state invariant. |
| Store.PutReads | inmemdb.py:13-29 | After a put, the written key reads back the written value and every other key reads as before, inside a transaction or not. |
| Store.LogLookup | inmemdb.py:21-24 | The backward scan finds nothing exactly when no entry writes the key. Otherwise it returns the value of the most recent entry that writes the key. |
| Store.Get | inmemdb.py:19-29 | Inside a transaction, the most recent pending write of the key wins. When no transaction is open, or the log never wrote the key, the committed map answers, and a missing key reads as `None`. The map lookup is `Store.Lookup`. |
| Store.ReplayLookup | inmemdb.py:31-37 | Applying the log forwards as overwrites leaves each key with the value the backward scan finds (last write wins), or its old value if the log never wrote it. |
| Store.Commit | inmemdb.py:31-39 | Fails with `NoActiveTransaction` exactly when no transaction is open. Otherwise the committed map becomes `Store.Replay` of the log over the old map: its writes applied as overwrites in order. The log is emptied and the transaction is closed. |
| Store.CommitPreservesReads | inmemdb.py:19-39 | Every key reads the same immediately before and after a successful commit. |
| Store.Rollback | inmemdb.py:41-46 | Fails with `NoActiveTransaction` exactly when no transaction is open. Otherwise it empties the log and closes the transaction, and the committed map is unchanged. |
| Store.RollbackReads | inmemdb.py:41-46 | After a rollback every key reads its committed value, whatever the discarded log held. |
| Store.ReplayKeys | inmemdb.py:35-37 | A commit adds exactly the logged keys to the committed map's domain and removes none. |
| Store.LastWriteUnique | inmemdb.py:21-24 | A key has at most one most recent write in the log. |
| Store.LastWriteExists | inmemdb.py:21-24 | A key that some entry writes has a most recent write, so the backward scan always returns when the key was written. |
| StoreMethods.ScanGet | inmemdb.py:19-29 | The reverse loop over the log returns the value of the most recent write of the key, or else the committed value, or `None`. That is exactly `Store.Get`. |
| StoreMethods.ReplayCommit | inmemdb.py:31-39 | The forward loop over the log computes exactly `Store.Commit`, including its failure when no transaction is open. |
| Session.Step | inmemdb.py:7-46 | A call raises exactly in these cases: begin while a transaction is open, or commit or rollback while none is open. A call that raises leaves the store unchanged. Every other call except a read replies `Done`. The new store is the result of `Store.Put` for a write, and of `Store.BeginTransaction`, `Store.Commit` or `Store.Rollback` for a successful begin, commit or rollback. A read never changes the store, and every call keeps the idle-state invariant. |
| Session.RunPreservesValid | inmemdb.py:7-46 | No sequence of calls, failing ones included, breaks the idle-state invariant. |
| Session.ReachableValid | inmemdb.py:2-46 | Every store reachable from a new one has an empty log whenever no transaction is open. |
| Session.RunAppend | inmemdb.py:7-46 | Running two batches of calls one after the other is the same as running their concatenation, in both the final store and the replies. |
| Session.RunWrites | inmemdb.py:13-15 | Inside a transaction, a batch of writes appends its entries to the log in order. It leaves the committed map alone and raises nothing. |
| Session.BeginWrites | inmemdb.py:7-15 | From an idle store, begin followed by a batch of writes gives an open transaction whose log is exactly the batch, over an untouched committed map. |
| Session.RollbackRestores | inmemdb.py:41-46 | Begin, any writes, then rollback: the store ends exactly as it started, and no call raises. |
| Session.CommitReplays | inmemdb.py:31-39 | Begin, any writes, then commit: the committed map is the old one with the writes applied in the order they were made. The log ends empty and no call raises. |
| Session.ReadYourWrites | inmemdb.py:19-27 | A read after begin and a batch of writes returns the newest write of the key in the batch, or the committed value when the batch never wrote it. |
| Session.LastWriteWins | inmemdb.py:20-37 | When a transaction writes a key twice, the later value is read back inside the transaction and is the value that commit stores. |
| Session.DemoOpeningReplies | inmemdb.py:48-60 | The read before any write gives `None`. After the idle write the store is idle with `A` committed as `5`. Begin and the pending write leave `A` as `5` in the map and one pending write in the log. |
| Session.DemoClosingReplies | inmemdb.py:62-68 | From there, the in-transaction read gives `5`, the second write and the commit reply `Done`, and the store ends idle with `A` committed as `6`. |
| Session.DemoFirstReplies | inmemdb.py:48-68 | The first half of the demonstration behaves as follows: the read before any write gives `None`; after the idle write the store is idle with `A` committed as `5`; the in-transaction read gives `5`; after the commit, `A` reads `6`. |
| Session.DemoSecondReplies | inmemdb.py:70-87 | The second half of the demonstration behaves as follows: commit and rollback with no transaction open both raise `NoActiveTransaction`; `B` reads `None` before its transaction and again after the rollback. |
| Session.DemoReplies | inmemdb.py:48-87 | The whole demonstration, run on one fresh store, gives every call's reply in order and ends with only `A` committed, as `6`. |

## Left out

- The demonstration's printing and its `try`/`except` blocks are I/O. `Session` models a caught exception as a `Raised` reply after which the session carries on.
- Exception messages are not modelled. The two `Exception` strings become the `Error` values `TransactionConflict` and `NoActiveTransaction`.
- The `'put'` tag of a log entry is not modelled. `put` is the only operation the class ever logs, so the `operation == 'put'` tests at lines 23 and 36 always hold, and `Store.Entry` has a single constructor.
- Storing Python's `None` as a value is not modelled. In the code, reading a key stored with value `None` cannot be told apart from reading a missing key. The model keeps them apart, because `Option` wraps the stored value.
- Python's hashing and dynamic typing are not modelled. Keys are any Dafny type with equality, which for class instances is identity, as under Python's default hash. A key class that overrides `__eq__` and `__hash__` is not modelled. Values are any type.
- Keys that are not equal to themselves are not modelled; the model assumes key equality is reflexive. For such a key, the float NaN for example, the backward scan at line 23 compares with `==` and misses a pending write. The dictionary lookups at lines 25, 29 and 37 find the same key by identity. So inside a transaction `get` returns the committed value rather than the pending one, and the read changes across `commit`. For these keys the promises of `Store.PutReads`, `Session.ReadYourWrites` and `Store.CommitPreservesReads` do not hold in the code.
- Unhashable keys are not modelled. With no transaction open, `put` raises `TypeError` at once at line 17. A `get` that reaches the committed map raises at line 25 or 29. Inside a transaction, `put` accepts such a key (line 15). `commit` then raises `TypeError` at line 37, part-way through the replay. That leaves the earlier writes committed and the transaction still open. In the model every key is hashable, so `Store.Put` and `Store.Get` never fail, and `Store.Commit` never fails inside a transaction.
- Concurrency is not modelled. The class has no locking, and the model treats calls as strictly sequential.
- Store.Put: its contract does not state the reads it causes. Read-your-writes for a single put is stated by `Store.PutReads`, so that the proofs about sequences of calls stay small.
- Session.Step: for a read, its contract states only that the store is unchanged and the reply is a value. The value read is stated by `Store.Get` and `Session.ReadYourWrites`, which keeps the proofs about concrete sequences of calls small.

=== FILE: session.dfy ===
/** A caller's session: a sequence of calls on one store, where a call that
    raises is reported to the caller and the session carries on with the
    store as it was. This states the properties that relate several calls. */
module Session {
  import opened Wrappers
  import opened Store

  /** One call of the store's interface. */
  datatype Command<K, V> =
    | BeginCmd
    | WriteCmd(key: K, value: V)
    | ReadCmd(key: K)
    | CommitCmd
    | RollbackCmd

  /** What a call hands back: nothing, a read value, or a raised error. */
  datatype Reply<V> = Done | Value(read: Option<V>) | Raised(error: Error)

  /** Performs one call by dispatching to the store's operation. A call that
      raises leaves the store unchanged, a read never changes it, and every
      other call that succeeds replies `Done`. */
  function Step<K(==), V>(db: Database<K, V>, c: Command<K, V>): (r: (Database<K, V>, Reply<V>))
    ensures r.1.Raised? ==> r.0 == db
    ensures r.1.Raised? <==>
      (c.BeginCmd? && db.inTransaction) || ((c.CommitCmd? || c.RollbackCmd?) && !db.inTransaction)
    ensures c.ReadCmd? ==> r.0 == db && r.1.Value?
    ensures !c.ReadCmd? && !r.1.Raised? ==> r.1 == Done
    ensures c.WriteCmd? ==> r.0 == Put(db, c.key, c.value)
    ensures c.BeginCmd? && r.1 == Done ==> r.0 == BeginTransaction(db).value
    ensures c.CommitCmd? && r.1 == Done ==> r.0 == Commit(db).value
    ensures c.RollbackCmd? && r.1 == Done ==> r.0 == Rollback(db).value
    ensures Valid(db) ==> Valid(r.0)
  {
    match c
    case BeginCmd =>
      (match BeginTransaction(db)
       case Success(d) => (d, Done)
       case Failure(e) => (db, Raised(e)))
    case WriteCmd(k, v) => (Put(db, k, v), Done)
    case ReadCmd(k) => (db, Value(Get(db, k)))
    case CommitCmd =>
      (match Commit(db)
       case Success(d) => (d, Done)
       case Failure(e) => (db, Raised(e)))
    case RollbackCmd =>
      (match Rollback(db)
       case Success(d) => (d, Done)
       case Failure(e) => (db, Raised(e)))
  }

  /** Performs the calls in order, collecting one reply per call. */
  function Run<K(==), V>(db: Database<K, V>, cmds: seq<Command<K, V>>): (r: (Database<K, V>, seq<Reply<V>>))
    ensures |r.1| == |cmds|
    decreases |cmds|
  {
    if |cmds| == 0 then (db, [])
    else
      var n := |cmds| - 1;
      var prev := Run(db, cmds[..n]);
      var step := Step(prev.0, cmds[n]);
      (step.0, prev.1 + [step.1])
  }

  /** The write calls that produce the log entries `es`. */
  function Writes<K, V>(es: seq<Entry<K, V>>): (cmds: seq<Command<K, V>>)
    ensures |cmds| == |es|
  {
    if |es| == 0 then []
    else Writes(es[..|es| - 1]) + [WriteCmd(es[|es| - 1].key, es[|es| - 1].value)]
  }

  /** The replies of `n` calls that all succeed without a value. */
  function AllDone<V>(n: nat): (replies: seq<Reply<V>>)
    ensures |replies| == n
  {
    if n == 0 then [] else AllDone(n - 1) + [Done]
  }

  /** Running two batches of calls one after the other is running their
      concatenation. */
  lemma {:induction false} RunAppend<K, V>(db: Database<K, V>, a: seq<Command<K, V>>, b: seq<Command<K, V>>)
    ensures Run(db, a + b).0 == Run(Run(db, a).0, b).0
    ensures Run(db, a + b).1 == Run(db, a).1 + Run(Run(db, a).0, b).1
    decreases |b|
  {
    if |b| > 0 {
      var n := |b| - 1;
      assert (a + b)[..|a + b| - 1] == a + b[..n];
      assert (a + b)[|a + b| - 1] == b[n];
      RunAppend(db, a, b[..n]);
    } else {
      assert a + b == a;
    }
  }

  /** A run of one call is that call's step. */
  lemma {:induction false} RunOne<K, V>(db: Database<K, V>, c: Command<K, V>)
    ensures Run(db, [c]) == (Step(db, c).0, [Step(db, c).1])
  {
    assert [c][..0] == [];
    assert [] + [Step(db, c).1] == [Step(db, c).1];
  }

  /** Inside a transaction, a batch of writes appends its entries to the log
      in order, leaves the committed map alone and raises nothing. */
  lemma {:induction false} RunWrites<K, V>(db: Database<K, V>, es: seq<Entry<K, V>>)
    requires db.inTransaction
    ensures Run(db, Writes(es)) == (Database(db.mainStore, db.transactionLog + es, true), AllDone(|es|))
    decreases |es|
  {
    if |es| == 0 {
      assert db.transactionLog + es == db.transactionLog;
    } else {
      var n := |es| - 1;
      var cmds := Writes(es);
      assert cmds[..n] == Writes(es[..n]);
      RunWrites(db, es[..n]);
      var d := Database(db.mainStore, db.transactionLog + es[..n], true);
      assert Run(db, cmds[..n]) == (d, AllDone(n));
      assert db.transactionLog + es[..n] + [es[n]] == db.transactionLog + es;
      assert Step(d, cmds[n]) == (Database(db.mainStore, db.transactionLog + es, true), Done);
    }
  }

  /** From an idle store, begin followed by a batch of writes opens a
      transaction whose log is exactly the batch, over an untouched
      committed map. */
  lemma {:induction false} BeginWrites<K, V>(db: Database<K, V>, es: seq<Entry<K, V>>)
    requires !db.inTransaction
    ensures Run(db, [BeginCmd] + Writes(es)) == (Database(db.mainStore, es, true), AllDone(|es| + 1))
    decreases |es|
  {
    var cmds := [BeginCmd] + Writes(es);
    if |es| == 0 {
      assert cmds == [BeginCmd];
      RunOne(db, BeginCmd);
    } else {
      var n := |es| - 1;
      assert cmds[..n + 1] == [BeginCmd] + Writes(es[..n]);
      BeginWrites(db, es[..n]);
      var d := Database(db.mainStore, es[..n], true);
      assert Run(db, cmds[..n + 1]) == (d, AllDone(n + 1));
      assert es[..n] + [es[n]] == es;
      assert Step(d, cmds[n + 1]) == (Database(db.mainStore, es, true), Done);
    }
  }

  /** Begin, any writes, rollback: the store ends exactly as it started,
      so every key reads as it did before the transaction. */
  lemma {:induction false} RollbackRestores<K, V>(db: Database<K, V>, es: seq<Entry<K, V>>)
    requires Valid(db) && !db.inTransaction
    ensures Run(db, [BeginCmd] + Writes(es) + [RollbackCmd]) == (db, AllDone(|es| + 2))
  {
    var cmds := [BeginCmd] + Writes(es) + [RollbackCmd];
    assert cmds[..|cmds| - 1] == [BeginCmd] + Writes(es);
    BeginWrites(db, es);
    assert AllDone<V>(|es| + 1) + [Done] == AllDone(|es| + 2);
  }

  /** Begin, any writes, commit: the committed map becomes the old one with
      the writes applied as overwrites in the order they were made. */
  lemma {:induction false} CommitReplays<K, V>(db: Database<K, V>, es: seq<Entry<K, V>>)
    requires !db.inTransaction
    ensures Run(db, [BeginCmd] + Writes(es) + [CommitCmd]) ==
      (Database(Replay(db.mainStore, es), [], false), AllDone(|es| + 2))
  {
    var cmds := [BeginCmd] + Writes(es) + [CommitCmd];
    assert cmds[..|cmds| - 1] == [BeginCmd] + Writes(es);
    BeginWrites(db, es);
    assert AllDone<V>(|es| + 1) + [Done] == AllDone(|es| + 2);
  }

  /** A read after begin and a batch of writes sees the newest write of the
      key in the batch, or the committed value when the batch never wrote it. */
  lemma {:induction false} ReadYourWrites<K, V>(db: Database<K, V>, es: seq<Entry<K, V>>, k: K)
    requires !db.inTransaction
    ensures Run(db, [BeginCmd] + Writes(es) + [ReadCmd(k)]).1[|es| + 1] ==
      Value(match LogLookup(es, k) case Some(v) => Some(v) case None => Lookup(db.mainStore, k))
  {
    var cmds := [BeginCmd] + Writes(es) + [ReadCmd(k)];
    assert cmds[..|cmds| - 1] == [BeginCmd] + Writes(es);
    BeginWrites(db, es);
  }

  /** Two writes of one key in a transaction: the later one is read back
      inside the transaction and is what commit stores. */
  lemma {:induction false} LastWriteWins<K, V>(db: Database<K, V>, k: K, v1: V, v2: V)
    requires !db.inTransaction
    ensures Run(db, [BeginCmd, WriteCmd(k, v1), WriteCmd(k, v2), ReadCmd(k)]).1[3] == Value(Some(v2))
    ensures Lookup(Run(db, [BeginCmd, WriteCmd(k, v1), WriteCmd(k, v2), CommitCmd]).0.mainStore, k) == Some(v2)
  {
    var es := [PutOp(k, v1), PutOp(k, v2)];
    assert Writes(es) == [WriteCmd(k, v1), WriteCmd(k, v2)];
    assert [BeginCmd] + Writes(es) + [ReadCmd(k)] == [BeginCmd, WriteCmd(k, v1), WriteCmd(k, v2), ReadCmd(k)];
    assert [BeginCmd] + Writes(es) + [CommitCmd] == [BeginCmd, WriteCmd(k, v1), WriteCmd(k, v2), CommitCmd];
    assert es[..1] == [PutOp(k, v1)];
    assert Replay(db.mainStore, es) == Replay(db.mainStore, es[..1])[k := v2];
    ReadYourWrites(db, es, k);
    CommitReplays(db, es);
  }

  /** Every state a session can reach from a fresh store keeps the
      idle-state invariant. */
  lemma {:induction false} ReachableValid<K, V>(cmds: seq<Command<K, V>>)
    ensures Valid(Run(Init<K, V>(), cmds).0)
  {
    RunPreservesValid(Init<K, V>(), cmds);
  }

  /** No sequence of calls, failing ones included, breaks the idle-state
      invariant. */
  lemma {:induction false} RunPreservesValid<K, V>(db: Database<K, V>, cmds: seq<Command<K, V>>)
    requires Valid(db)
    ensures Valid(Run(db, cmds).0)
    decreases |cmds|
  {
    if |cmds| > 0 {
      RunPreservesValid(db, cmds[..|cmds| - 1]);
    }
  }

  /** A run is the chain of its single steps: given the state before each
      call and the reply of each call, the run ends in the last state with
      those replies. */
  lemma {:induction false} RunSteps<K, V>(
    ds: seq<Database<K, V>>, cmds: seq<Command<K, V>>, replies: seq<Reply<V>>)
    requires |ds| == |cmds| + 1 && |replies| == |cmds|
    requires forall i :: 0 <= i < |cmds| ==> Step(ds[i], cmds[i]) == (ds[i + 1], replies[i])
    ensures Run(ds[0], cmds) == (ds[|cmds|], replies)
    decreases |cmds|
  {
    if |cmds| > 0 {
      var n := |cmds| - 1;
      RunSteps(ds[..n + 1], cmds[..n], replies[..n]);
      assert Step(ds[n], cmds[n]) == (ds[n + 1], replies[n]);
      assert replies[..n] + [replies[n]] == replies;
    }
  }

  /** The calls of the source file's demonstration, lines 50-60: a read and
      a write before any transaction, then begin and a pending write of "A". */
  function DemoOpening(): seq<Command<string, int>>
  {
    [ReadCmd("A"), WriteCmd("A", 5), BeginCmd, WriteCmd("A", 5)]
  }

  /** The calls of the demonstration, lines 62-68: a read inside the
      transaction, a second write of "A", commit, and a read after it. */
  function DemoClosing(): seq<Command<string, int>>
  {
    [ReadCmd("A"), WriteCmd("A", 6), CommitCmd, ReadCmd("A")]
  }

  /** The calls of the demonstration's first half, lines 50-68. */
  function DemoFirst(): seq<Command<string, int>>
  {
    DemoOpening() + DemoClosing()
  }

  /** The calls of the demonstration, lines 70-87: commit and rollback with
      no transaction open, then a rolled-back write of "B". */
  function DemoSecond(): seq<Command<string, int>>
  {
    [CommitCmd, RollbackCmd, ReadCmd("B"), BeginCmd, WriteCmd("B", 10), RollbackCmd, ReadCmd("B")]
  }

  /** Lines 50-60 as the code behaves: the idle write lands in the
      committed map, and begin opens a transaction over it. */
  lemma DemoOpeningReplies()
    ensures Run(Init<string, int>(), DemoOpening()[..2]).0 == Database(map["A" := 5], [], false)
    ensures Run(Init<string, int>(), DemoOpening()) ==
      (Database(map["A" := 5], [PutOp("A", 5)], true), [Value(None), Done, Done, Done])
  {
    var cmds := DemoOpening();
    var s0: Database<string, int> := Init();
    var s1 := Database(map["A" := 5], [], false);
    var s2 := Database(map["A" := 5], [], true);
    var s3 := Database(map["A" := 5], [PutOp("A", 5)], true);
    var ds := [s0, s0, s1, s2, s3];
    var replies := [Value(None), Done, Done, Done];
    forall i | 0 <= i < |cmds|
      ensures Step(ds[i], cmds[i]) == (ds[i + 1], replies[i])
    {
      if i == 0 { assert Step(s0, ReadCmd("A")) == (s0, Value(None)); }
      else if i == 1 { assert Step(s0, WriteCmd("A", 5)) == (s1, Done); }
      else if i == 2 { assert Step(s1, BeginCmd) == (s2, Done); }
      else {
        assert Put(s2, "A", 5) == s3;
        assert Step(s2, WriteCmd("A", 5)) == (s3, Done);
      }
    }
    RunSteps(ds[..3], cmds[..2], replies[..2]);
    RunSteps(ds, cmds, replies);
  }

  /** Lines 62-68 as the code behaves: the read inside the transaction sees
      its own pending write, and commit stores the newer write. */
  lemma DemoClosingReplies()
    ensures Run(Database(map["A" := 5], [PutOp("A", 5)], true), DemoClosing()) ==
      (Database(map["A" := 6], [], false), [Value(Some(5)), Done, Done, Value(Some(6))])
  {
    var cmds := DemoClosing();
    var s3: Database<string, int> := Database(map["A" := 5], [PutOp("A", 5)], true);
    var s4 := Database(map["A" := 5], [PutOp("A", 5), PutOp("A", 6)], true);
    var s5 := Database(map["A" := 6], [], false);
    var ds := [s3, s3, s4, s5, s5];
    var replies := [Value(Some(5)), Done, Done, Value(Some(6))];
    forall i | 0 <= i < |cmds|
      ensures Step(ds[i], cmds[i]) == (ds[i + 1], replies[i])
    {
      if i == 0 { assert Step(s3, ReadCmd("A")) == (s3, Value(Some(5))); }
      else if i == 1 {
        assert Put(s3, "A", 6) == s4;
        assert Step(s3, WriteCmd("A", 6)) == (s4, Done);
      } else if i == 2 {
        assert Replay(map["A" := 5], [PutOp("A", 5), PutOp("A", 6)]) == map["A" := 6];
        assert Step(s4, CommitCmd) == (s5, Done);
      }
      else { assert Step(s5, ReadCmd("A")) == (s5, Value(Some(6))); }
    }
    RunSteps(ds, cmds, replies);
  }

  /** The first half as the code behaves: the idle write lands in the
      committed map, and the read inside the transaction sees its own
      pending write. */
  lemma {:induction false} DemoFirstReplies()
    ensures Run(Init<string, int>(), DemoFirst()[..2]).0 == Database(map["A" := 5], [], false)
    ensures Run(Init<string, int>(), DemoFirst()) ==
      (Database(map["A" := 6], [], false),
       [Value(None), Done, Done, Done, Value(Some(5)), Done, Done, Value(Some(6))])
  {
    var s0: Database<string, int> := Init();
    var s3 := Database(map["A" := 5], [PutOp("A", 5)], true);
    var s5 := Database(map["A" := 6], [], false);
    var opening := [Value(None), Done, Done, Done];
    var closing := [Value(Some(5)), Done, Done, Value(Some(6))];
    DemoOpeningReplies();
    DemoClosingReplies();
    assert DemoFirst()[..2] == DemoOpening()[..2];
    assert Run(s0, DemoOpening()) == (s3, opening);
    assert Run(s3, DemoClosing()) == (s5, closing);
    RunAppend(s0, DemoOpening(), DemoClosing());
    assert opening + closing == [Value(None), Done, Done, Done, Value(Some(5)), Done, Done, Value(Some(6))];
  }

  /** The second half as the code behaves: commit and rollback raise with no
      transaction open, and a rolled-back write is never seen. */
  lemma DemoSecondReplies()
    ensures Run(Database(map["A" := 6], [], false), DemoSecond()) ==
      (Database(map["A" := 6], [], false),
       [Raised(NoActiveTransaction), Raised(NoActiveTransaction), Value(None), Done, Done, Done, Value(None)])
  {
    var cmds := DemoSecond();
    var s5: Database<string, int> := Database(map["A" := 6], [], false);
    var s6 := Database(map["A" := 6], [], true);
    var s7 := Database(map["A" := 6], [PutOp("B", 10)], true);
    var ds := [s5, s5, s5, s5, s6, s7, s5, s5];
    var replies := [Raised(NoActiveTransaction), Raised(NoActiveTransaction), Value(None), Done, Done, Done, Value(None)];
    forall i | 0 <= i < |cmds|
      ensures Step(ds[i], cmds[i]) == (ds[i + 1], replies[i])
    {
      if i == 0 { assert Step(s5, CommitCmd) == (s5, Raised(NoActiveTransaction)); }
      else if i == 1 { assert Step(s5, RollbackCmd) == (s5, Raised(NoActiveTransaction)); }
      else if i == 2 { assert Step(s5, ReadCmd("B")) == (s5, Value(None)); }
      else if i == 3 { assert Step(s5, BeginCmd) == (s6, Done); }
      else if i == 4 {
        assert Put(s6, "B", 10) == s7;
        assert Step(s6, WriteCmd("B", 10)) == (s7, Done);
      }
      else if i == 5 { assert Step(s7, RollbackCmd) == (s5, Done); }
      else { assert Step(s5, ReadCmd("B")) == (s5, Value(None)); }
    }
    RunSteps(ds, cmds, replies);
  }

  /** The whole demonstration, run as one session on one fresh store: the
      store ends with "A" committed as 6 and nothing else, and each call
      replies as the two halves say. */
  lemma {:induction false} DemoReplies()
    ensures Run(Init<string, int>(), DemoFirst() + DemoSecond()) ==
      (Database(map["A" := 6], [], false),
       [Value(None), Done, Done, Done, Value(Some(5)), Done, Done, Value(Some(6)),
        Raised(NoActiveTransaction), Raised(NoActiveTransaction), Value(None), Done, Done, Done, Value(None)])
  {
    var s0: Database<string, int> := Init();
    var s5 := Database(map["A" := 6], [], false);
    var first := [Value(None), Done, Done, Done, Value(Some(5)), Done, Done, Value(Some(6))];
    var second := [Raised(NoActiveTransaction), Raised(NoActiveTransaction), Value(None), Done, Done, Done, Value(None)];
    DemoFirstReplies();
    DemoSecondReplies();
    assert Run(s0, DemoFirst()) == (s5, first);
    assert Run(s5, DemoSecond()) == (s5, second);
    RunAppend(s0, DemoFirst(), DemoSecond());
    assert first + second ==
      [Value(None), Done, Done, Done, Value(Some(5)), Done, Done, Value(Some(6)),
       Raised(NoActiveTransaction), Raised(NoActiveTransaction), Value(None), Done, Done, Done, Value(None)];
  }
}

=== FILE: store.dfy ===
/** The transactional key-value store `InMemoryDatabase`: a committed map,
    a pending write log and a flag saying whether a transaction is open.
    Every operation is a pure transition on an immutable `Database` value. */
module Store {
  import opened Wrappers

  /** The two ways an operation can refuse to run. */
  datatype Error =
    | TransactionConflict   // begin while a transaction is already open
    | NoActiveTransaction   // commit or rollback while no transaction is open

  /** One pending write of the transaction log; `put` is the only kind of
      entry the store ever records. */
  datatype Entry<K, V> = PutOp(key: K, value: V)

  datatype Database<K(==), V> = Database(
    mainStore: map<K, V>,
    transactionLog: seq<Entry<K, V>>,
    inTransaction: bool)

  /** The idle-state invariant: outside a transaction the log is empty. */
  predicate Valid<K(==), V>(db: Database<K, V>)
  {
    !db.inTransaction ==> db.transactionLog == []
  }

  /** Looks `k` up in a plain map. */
  function Lookup<K(==), V>(m: map<K, V>, k: K): Option<V>
  {
    if k in m then Some(m[k]) else None
  }

  /** No entry of `log` writes `k`. */
  ghost predicate NotWritten<K, V>(log: seq<Entry<K, V>>, k: K)
  {
    forall i :: 0 <= i < |log| ==> log[i].key != k
  }

  /** Entry `i` is the most recent write of `k` in `log`. */
  ghost predicate IsLastWrite<K, V>(log: seq<Entry<K, V>>, k: K, i: int)
  {
    && 0 <= i < |log|
    && log[i].key == k
    && (forall j :: i < j < |log| ==> log[j].key != k)
  }

  /** The value of the newest entry of `log` that writes `k`, found by
      scanning from the end of the log towards its start. */
  function LogLookup<K(==), V>(log: seq<Entry<K, V>>, k: K): (r: Option<V>)
    ensures r.None? <==> NotWritten(log, k)
    ensures forall i :: IsLastWrite(log, k, i) ==> r == Some(log[i].value)
    decreases |log|
  {
    if |log| == 0 then None
    else
      var n := |log| - 1;
      if log[n].key == k then Some(log[n].value)
      else
        assert forall i :: IsLastWrite(log, k, i) ==> IsLastWrite(log[..n], k, i);
        assert NotWritten(log[..n], k) ==> NotWritten(log, k);
        LogLookup(log[..n], k)
  }

  /** A fresh store: nothing committed, no transaction open. */
  function Init<K(==), V>(): (db: Database<K, V>)
    ensures Valid(db) && !db.inTransaction
    ensures |db.mainStore| == 0
  {
    Database(map[], [], false)
  }

  /** Every key of a fresh store reads as absent. */
  lemma InitReads<K, V>()
    ensures forall k :: Get(Init<K, V>(), k) == None
  {
  }

  /** Opens a transaction with an empty log; refuses if one is already open. */
  function BeginTransaction<K(==), V>(db: Database<K, V>): (r: Result<Database<K, V>, Error>)
    ensures r.Failure? <==> db.inTransaction
    ensures r.Failure? ==> r.error == TransactionConflict
    ensures r.Success? ==> Valid(r.value) && r.value.inTransaction && r.value.transactionLog == []
    ensures r.Success? ==> r.value.mainStore == db.mainStore
  {
    if db.inTransaction then Failure(TransactionConflict)
    else Success(Database(db.mainStore, [], true))
  }

  /** Opening a transaction from an idle store changes no read. */
  lemma BeginPreservesReads<K, V>(db: Database<K, V>, k: K)
    requires !db.inTransaction
    ensures Get(BeginTransaction(db).value, k) == Get(db, k)
  {
  }

  /** Writes `v` under `k`: inside a transaction the write is appended to the
      log and the committed map is untouched; outside one it goes straight
      into the committed map. `put` never fails. */
  function Put<K(==), V>(db: Database<K, V>, k: K, v: V): (r: Database<K, V>)
    ensures r.inTransaction == db.inTransaction
    ensures Valid(db) ==> Valid(r)
    ensures db.inTransaction ==> r.mainStore == db.mainStore
    ensures db.inTransaction ==> r.transactionLog == db.transactionLog + [PutOp(k, v)]
    ensures !db.inTransaction ==> r.transactionLog == db.transactionLog
    ensures !db.inTransaction ==> r.mainStore.Keys == db.mainStore.Keys + {k}
  {
    if db.inTransaction then
      Database(db.mainStore, db.transactionLog + [PutOp(k, v)], true)
    else
      Database(db.mainStore[k := v], db.transactionLog, false)
  }

  /** After a put, the written key reads back the written value and every
      other key reads as before, inside a transaction or not. */
  lemma PutReads<K, V>(db: Database<K, V>, k: K, v: V, k': K)
    ensures Get(Put(db, k, v), k') == if k' == k then Some(v) else Get(db, k')
  {
    if db.inTransaction {
      var log := Put(db, k, v).transactionLog;
      assert log[..|log| - 1] == db.transactionLog;
    }
  }

  /** Reads `k`: inside a transaction the newest pending write of `k` wins;
      otherwise (or when the log never wrote `k`) the committed map answers,
      and an unknown key reads as `None`. */
  function Get<K(==), V>(db: Database<K, V>, k: K): (r: Option<V>)
    ensures db.inTransaction ==>
      forall i :: IsLastWrite(db.transactionLog, k, i) ==> r == Some(db.transactionLog[i].value)
    ensures !db.inTransaction || NotWritten(db.transactionLog, k) ==> r == Lookup(db.mainStore, k)
  {
    if db.inTransaction then
      match LogLookup(db.transactionLog, k)
      case Some(v) => Some(v)
      case None => Lookup(db.mainStore, k)
    else Lookup(db.mainStore, k)
  }

  /** The committed map after applying the writes of `log` as overwrites,
      oldest first. */
  function Replay<K(==), V>(m: map<K, V>, log: seq<Entry<K, V>>): map<K, V>
    decreases |log|
  {
    if |log| == 0 then m
    else
      var n := |log| - 1;
      Replay(m, log[..n])[log[n].key := log[n].value]
  }

  /** Replaying the log forwards leaves every key with the value the
      backward scan of the log finds, or its old value if the log never
      wrote it: last write wins. */
  lemma {:induction false} ReplayLookup<K, V>(m: map<K, V>, log: seq<Entry<K, V>>, k: K)
    ensures Lookup(Replay(m, log), k) ==
      match LogLookup(log, k)
      case Some(v) => Some(v)
      case None => Lookup(m, k)
    decreases |log|
  {
    if |log| > 0 {
      ReplayLookup(m, log[..|log| - 1], k);
    }
  }

  /** Applies the pending log to the committed map in append order, empties
      the log and closes the transaction; refuses if none is open. Every key
      reads the same immediately before and after a successful commit
      (`CommitPreservesReads`). */
  function Commit<K(==), V>(db: Database<K, V>): (r: Result<Database<K, V>, Error>)
    ensures r.Failure? <==> !db.inTransaction
    ensures r.Failure? ==> r.error == NoActiveTransaction
    ensures r.Success? ==> Valid(r.value) && !r.value.inTransaction
    ensures r.Success? ==> r.value.mainStore == Replay(db.mainStore, db.transactionLog)
  {
    if !db.inTransaction then Failure(NoActiveTransaction)
    else Success(Database(Replay(db.mainStore, db.transactionLog), [], false))
  }

  /** Every key reads the same immediately before and after a successful
      commit: the forward replay agrees with the backward scan of the log. */
  lemma CommitPreservesReads<K, V>(db: Database<K, V>, k: K)
    requires db.inTransaction
    ensures Get(Commit(db).value, k) == Get(db, k)
  {
    ReplayLookup(db.mainStore, db.transactionLog, k);
  }

  /** Discards the pending log and closes the transaction without touching
      the committed map; refuses if none is open. */
  function Rollback<K(==), V>(db: Database<K, V>): (r: Result<Database<K, V>, Error>)
    ensures r.Failure? <==> !db.inTransaction
    ensures r.Failure? ==> r.error == NoActiveTransaction
    ensures r.Success? ==> Valid(r.value) && !r.value.inTransaction
    ensures r.Success? ==> r.value.mainStore == db.mainStore
  {
    if !db.inTransaction then Failure(NoActiveTransaction)
    else Success(Database(db.mainStore, [], false))
  }

  /** After a rollback every key reads its committed value, whatever the
      discarded log held. */
  lemma RollbackReads<K, V>(db: Database<K, V>, k: K)
    requires db.inTransaction
    ensures Get(Rollback(db).value, k) == Lookup(db.mainStore, k)
  {
  }

  /** The keys written by some entry of `log`. */
  ghost function LoggedKeys<K, V>(log: seq<Entry<K, V>>): set<K>
  {
    set i | 0 <= i < |log| :: log[i].key
  }

  /** Replay adds exactly the logged keys to the committed map's domain. */
  lemma {:induction false} ReplayKeys<K, V>(m: map<K, V>, log: seq<Entry<K, V>>)
    ensures Replay(m, log).Keys == m.Keys + LoggedKeys(log)
    decreases |log|
  {
    if |log| > 0 {
      var n := |log| - 1;
      ReplayKeys(m, log[..n]);
      assert LoggedKeys(log) == LoggedKeys(log[..n]) + {log[n].key} by {
        forall x | x in LoggedKeys(log) ensures x in LoggedKeys(log[..n]) + {log[n].key} {
          var i :| 0 <= i < |log| && log[i].key == x;
          if i < n { assert log[..n][i] == log[i]; }
        }
        forall x | x in LoggedKeys(log[..n]) ensures x in LoggedKeys(log) {
          var i :| 0 <= i < n && log[..n][i].key == x;
          assert log[i].key == x;
        }
      }
    }
  }

  /** The most recent write of a key is unique, so the backward scan's
      answer is determined by the log. */
  lemma LastWriteUnique<K, V>(log: seq<Entry<K, V>>, k: K, i: int, j: int)
    requires IsLastWrite(log, k, i) && IsLastWrite(log, k, j)
    ensures i == j
  {
  }

  /** Every key the log writes has a most recent write. */
  lemma {:induction false} LastWriteExists<K, V>(log: seq<Entry<K, V>>, k: K)
    requires !NotWritten(log, k)
    ensures exists i :: IsLastWrite(log, k, i)
    decreases |log|
  {
    var n := |log| - 1;
    if log[n].key != k {
      var i :| 0 <= i < |log| && log[i].key == k;
      assert log[..n][i].key == k;
      LastWriteExists(log[..n], k);
      var j :| IsLastWrite(log[..n], k, j);
      assert IsLastWrite(log, k, j);
    } else {
      assert IsLastWrite(log, k, n);
    }
  }
}

=== FILE: store_methods.dfy ===
/** The two loops of `InMemoryDatabase` written as loops: the backward scan
    of `get` and the forward replay of `commit`. Each is proved to compute
    exactly what the functional definition in `Store` describes. */
module StoreMethods {
  import opened Wrappers
  import opened Store

  /** `get`: walks the log from its newest entry to its oldest and returns
      the first write of `k`; falls back to the committed map. */
  method ScanGet<K(==), V>(db: Database<K, V>, k: K) returns (r: Option<V>)
    ensures r == Get(db, k)
  {
    if db.inTransaction {
      var log := db.transactionLog;
      var i := |log|;
      while i > 0
        invariant 0 <= i <= |log|
        invariant forall j :: i <= j < |log| ==> log[j].key != k
      {
        i := i - 1;
        if log[i].key == k {
          assert IsLastWrite(log, k, i);
          return Some(log[i].value);
        }
      }
      assert NotWritten(log, k);
    }
    r := Lookup(db.mainStore, k);
  }

  /** `commit`: copies the log's writes into the committed map in append
      order, then empties the log and closes the transaction. */
  method ReplayCommit<K(==), V>(db: Database<K, V>) returns (r: Result<Database<K, V>, Error>)
    ensures r == Commit(db)
  {
    if !db.inTransaction {
      return Failure(NoActiveTransaction);
    }
    var log := db.transactionLog;
    var m := db.mainStore;
    for i := 0 to |log|
      invariant m == Replay(db.mainStore, log[..i])
    {
      assert log[..i + 1][..i] == log[..i];
      m := m[log[i].key := log[i].value];
    }
    assert log[..|log|] == log;
    r := Success(Database(m, [], false));
  }
}

=== FILE: wrappers.dfy ===
/** Optional values and success/failure results, used in place of Python's
    `None` and raised exceptions. */
module Wrappers {

  /** A value that may be absent; `None` plays the role of Python's `None`
      returned by a lookup that finds nothing. */
  datatype Option<+T> = None | Some(value: T)

  /** The outcome of an operation that either succeeds with a value or fails
      with an error instead of raising an exception. */
  datatype Result<+R, +E> = Success(value: R) | Failure(error: E)
}
